=== FILE: README.md ===
# RTB House bid adapter — a Dafny model

This project models the core of the RTB House bid adapter for Prebid.js
(`modules/rtbhouseBidAdapter.js`). The adapter does three things:

- it checks whether an ad slot is eligible for the RTB House endpoint;
- it turns a batch of slots into one OpenRTB 2.x bid request, with banner and
  OpenRTB Native 1.1 impressions and optional GDPR consent;
- it turns the endpoint's OpenRTB bids back into the framework's bid results.
  Native ad markup is decoded into the framework's native structure.

Modules, following the source's structure:

- `Wrappers`: `Option`, `Result`, and JavaScript truthiness for optional
  strings and numbers.
- `OpenRtb`: the native asset IDs, image types and data-asset types of
  OpenRTB Native Ads 1.1. These constants are shared by the request encoder
  and the markup decoder. The module also fixes the order in which the
  adapter emits asset requests.
- `BidRequest`: the slot (bid request) data model, and the conditions under
  which a slot can be mapped without a fault.
- `Validator`: `isBidRequestValid` and the regional endpoint URL.
- `Consent`: normalisation of the GDPR consent string to URL-safe base64, as
  in section 5 of RFC 4648. The trailing padding of section 3.2 is stripped.
- `RequestBuilder`: `buildRequests`, `mapImpression`, `mapBanner`,
  `mapNative`, `mapNativeAssets`, `mapNativeImage` and `mapSite`.
- `NativeDecoder`: `interpretNativeAd`. The fold over the markup's assets is
  related to a field-by-field reference description: each field comes from
  the last asset carrying its ID.
- `ResponseInterpreter`: `interpretResponse`, `interpretBannerBid` and
  `interpretNativeBid`.

Calls the model cannot see are parameters:

- `JSON.parse(adm).native` is `parse: string -> Option<NativeMarkup>`.
  `None` stands for a parse that throws.
- `encodeURIComponent` is `encode: string -> string`.
- `utils.getTopWindowUrl()` and `utils.getOrigin()` are the `page` and
  `origin` arguments of `BuildRequests`.
- `JSON.stringify` of the request is not modelled. `ServerRequest.data`
  holds the request object itself.

Some behaviours of the code are worth stating plainly:

- Native markup that fails to parse or decode has no try/catch around it.
  The failure aborts the whole `interpretResponse` call, so the model returns
  `Failure` for the whole batch.
- The body asset's `required` flag is read from `params.body.request`. Every
  other asset reads `required`. `BodyRequiredFlagIgnoresRequired` states this.
- When the first slot has no region, the request goes to
  `https://undefined.creativecdn.com/...`, which `RegionText` models. Later
  slots' regions are not read.
- `image.sizes` given as an empty list of pairs leaves `w` and `h` unset.

## Model

| member | source | states |
|---|---|---|
| OpenRtb.KindOf | modules/rtbhouseBidAdapter.js:18-26 | an ID names an asset kind exactly when it is one of 1..7 |
| OpenRtb.KindOfInvertsAssetId | modules/rtbhouseBidAdapter.js:18-26 | the ID table is invertible: looking up a kind's ID gives the kind back, and only that ID names it |
| OpenRtb.AssetIdInjective | modules/rtbhouseBidAdapter.js:18-26 | no two asset kinds share an ID |
| OpenRtb.EmissionFrom | modules/rtbhouseBidAdapter.js:155-215 | the emission order from a given rank on has one kind per remaining rank, in rank order |
| OpenRtb.RankIsEmissionPosition | modules/rtbhouseBidAdapter.js:155-215 | the emission order has seven kinds, and each kind sits at its own rank (title, image, icon, sponsored, body, click URL, CTA) |
| Validator.IsBidRequestValid | modules/rtbhouseBidAdapter.js:40-42 | a slot is valid iff its region is one of prebid-eu, prebid-us, prebid-asia and its publisher ID is a non-empty string |
| Validator.BuildEndpointUrl | modules/rtbhouseBidAdapter.js:86-88 | the URL is `https://`, then the region, then `.creativecdn.com/bidder/prebid/bids` |
| Validator.RegionOfUrl | modules/rtbhouseBidAdapter.js:86-88 | any region recovered from a URL rebuilds that exact URL |
| Validator.RegionOfEndpointUrl | modules/rtbhouseBidAdapter.js:86-88 | round trip: the region of a region's endpoint URL is that region |
| Validator.EndpointUrlInjective | modules/rtbhouseBidAdapter.js:86-88 | distinct regions are sent to distinct URLs |
| Consent.ReplaceAll | modules/rtbhouseBidAdapter.js:53 | a global replace keeps the length and changes exactly the occurrences of one character |
| Consent.StripTrailing | modules/rtbhouseBidAdapter.js:53 | removing `=+$` leaves a prefix that does not end in `=`, and only `=` characters were removed |
| Consent.NormalizeConsent | modules/rtbhouseBidAdapter.js:52-53 | the consent string is never longer than the input; each kept character is its URL-safe counterpart; only trailing `=` are dropped; no `+` or `/` remains |
| Consent.NormalizeConsentUnique | modules/rtbhouseBidAdapter.js:52-53 | those properties determine the normalised string completely |
| Consent.NormalizeConsentIdempotent | modules/rtbhouseBidAdapter.js:52-53 | normalising an already normalised string changes nothing |
| Consent.NormalizeConsentExample | modules/rtbhouseBidAdapter.js:52-53 | `AB+/=` is sent as `AB-_` |
| RequestBuilder.MapFormats | modules/rtbhouseBidAdapter.js:112-115 | one format entry per size pair, in order, with the same width and height |
| RequestBuilder.MapBanner | modules/rtbhouseBidAdapter.js:105-118 | a banner is sent iff the media type is `banner`, or `mediaTypes.banner` is set, or neither media type is given; it is sized by the first pair, and its formats mirror all pairs |
| RequestBuilder.MapNativeImage | modules/rtbhouseBidAdapter.js:222-236 | the image request carries the given type; `wmin` is present iff aspect ratios are, and is the first ratio's minimum width or 100; `w` and `h` come from a single pair or the first of a list, and are absent without sizes |
| RequestBuilder.MapAsset | modules/rtbhouseBidAdapter.js:155-215 | an element's asset request is present iff the element is named; it has the element's ID, a 0/1 `required` (read from `request` for the body), the title length or 140, and the image type or data type of the element |
| RequestBuilder.EmitAssets | modules/rtbhouseBidAdapter.js:155-215 | the if-chain of asset pushes: never more assets than kinds visited; EmitAssetsSound, EmitAssetsComplete and EmitAssetsOrdered give its contents and order |
| RequestBuilder.EmitAssetsKinds | modules/rtbhouseBidAdapter.js:152-217 | every emitted asset has the ID of one of the kinds visited |
| RequestBuilder.EmitAssetsSound | modules/rtbhouseBidAdapter.js:152-217 | every emitted asset is the request its element's mapping builds |
| RequestBuilder.EmitAssetsComplete | modules/rtbhouseBidAdapter.js:152-217 | every named element among the kinds visited gets an asset |
| RequestBuilder.EmitAssetsOrdered | modules/rtbhouseBidAdapter.js:152-217 | visiting kinds in emission order emits assets in emission order |
| RequestBuilder.EmitAssetsRequested | modules/rtbhouseBidAdapter.js:152-217 | an element has an asset iff the native parameters name it |
| RequestBuilder.EmissionShape | modules/rtbhouseBidAdapter.js:152-217 | at most seven assets, no ID twice, every `required` 0 or 1 |
| RequestBuilder.MapNativeAssets | modules/rtbhouseBidAdapter.js:152-217 | the asset list has one request per named element and no other, in the order title, image, icon, sponsored, body, click URL, CTA; IDs are distinct, there are at most seven, every `required` is 0 or 1 |
| RequestBuilder.BodyRequiredFlagIgnoresRequired | modules/rtbhouseBidAdapter.js:187-190 | a body marked `required` but not `request` is sent with `required` 0 |
| RequestBuilder.MapNative | modules/rtbhouseBidAdapter.js:138-147 | a native object is sent iff the media type is `native` or `mediaTypes.native` is set; it is version 1.1 and carries the asset list of the slot's native parameters |
| RequestBuilder.MapImpression | modules/rtbhouseBidAdapter.js:93-100 | the Imp has the slot's bid ID and ad unit code, a banner iff the slot wants one, and a native object iff the slot wants one |
| RequestBuilder.MapImpressions | modules/rtbhouseBidAdapter.js:46 | one Imp per slot, in slot order |
| RequestBuilder.MapSite | modules/rtbhouseBidAdapter.js:123-133 | the publisher is the first slot's publisher ID, or `unknown` without slots; page and name are the page URL and origin |
| RequestBuilder.ValidSlotEndpoint | modules/rtbhouseBidAdapter.js:40-42 | a slot that passes validation has a publisher ID, and its request goes to its own region's endpoint URL, from which that region is recovered |
| RequestBuilder.BuildRequests | modules/rtbhouseBidAdapter.js:43-64 | a POST to the first slot's regional endpoint; request ID is the auction ID; one Imp per slot in order; currency USD; test is the first slot's truthy test flag or 0; `regs` and `user` are present iff GDPR applies, then with `gdpr` 1 and the normalised consent string (empty when there is none) |
| NativeDecoder.InitialAd | modules/rtbhouseBidAdapter.js:278-282 | decoding starts from the encoded link URL and the trackers as given, with no element set |
| NativeDecoder.ApplyAsset | modules/rtbhouseBidAdapter.js:284-314 | one asset fails iff its recognised ID lacks the object it is read from; an unknown ID changes nothing; otherwise exactly its element changes, URLs encoded |
| NativeDecoder.DecodeAssets | modules/rtbhouseBidAdapter.js:283-315 | the `forEach`/`switch` over the assets succeeds iff every asset carries the object its ID is read from, and keeps the trackers; DecodeAssetsIsReference gives every field |
| NativeDecoder.LastWithId | modules/rtbhouseBidAdapter.js:283-315 | an ID's last asset exists iff some asset has that ID, and is one of them |
| NativeDecoder.LastWithIdIsLast | modules/rtbhouseBidAdapter.js:283-315 | no later asset carries the same ID |
| NativeDecoder.ReferenceStep | modules/rtbhouseBidAdapter.js:283-315 | applying one more asset to the reference description of a prefix gives the reference description of the longer list |
| NativeDecoder.DecodeAssetsIsReference | modules/rtbhouseBidAdapter.js:283-315 | the asset loop fails iff some asset is undecodable; otherwise every field holds its ID's last asset (last write wins) and unknown IDs contribute nothing |
| NativeDecoder.LastWithIdOfDistinct | modules/rtbhouseBidAdapter.js:283-315 | without repeated IDs, an ID's last asset is simply its asset |
| NativeDecoder.SameMembersSameLast | modules/rtbhouseBidAdapter.js:283-315 | lists with the same members and no repeated IDs agree on every ID's last asset |
| NativeDecoder.SameLastSameReference | modules/rtbhouseBidAdapter.js:283-315 | the decoded structure depends only on each ID's last asset |
| NativeDecoder.DistinctIdsPermutation | modules/rtbhouseBidAdapter.js:283-315 | a rearrangement of an asset list with no repeated ID has no repeated ID |
| NativeDecoder.DecodeAssetsOrderIndependent | modules/rtbhouseBidAdapter.js:283-315 | without repeated IDs, reordering the assets does not change the decoded structure |
| NativeDecoder.KnownAssets | modules/rtbhouseBidAdapter.js:284-314 | the assets kept are exactly those whose ID is in the enumeration, and there are no more of them than assets |
| NativeDecoder.KnownAssetsAppend | modules/rtbhouseBidAdapter.js:284-314 | the filter distributes over concatenation, so known assets keep their order and number of copies |
| NativeDecoder.UnknownAssetsIgnored | modules/rtbhouseBidAdapter.js:284-314 | dropping assets with unknown IDs does not change the decoded structure |
| NativeDecoder.InterpretNativeAd | modules/rtbhouseBidAdapter.js:277-317 | markup that does not parse fails; parsed markup decodes iff every recognised asset carries its object; the impression trackers are passed through verbatim |
| NativeDecoder.InterpretNativeAdFields | modules/rtbhouseBidAdapter.js:277-317 | the click URL is the encoded last click-URL asset if there is one, else the encoded link URL; every field is the reference description's |
| NativeDecoder.TitleAndImageExample | modules/rtbhouseBidAdapter.js:277-317 | markup with a title and an image gives that title, the image with an encoded URL and its size, and the encoded link URL |
| ResponseInterpreter.InterpretBannerBid | modules/rtbhouseBidAdapter.js:241-254 | a banner result carries the bid's impression ID, price, creative ID, markup and size, TTL 55, net revenue, USD |
| ResponseInterpreter.InterpretNativeBid | modules/rtbhouseBidAdapter.js:259-272 | a native result exists iff the markup decodes; it carries the bid's identifiers and price, the decoded native ad, a 1x1 size, TTL 55, net revenue, USD |
| ResponseInterpreter.InterpretBid | modules/rtbhouseBidAdapter.js:76-80 | a bid is native iff its markup starts with `{"native`, otherwise a banner carrying the markup and size; it fails iff it is native and the markup does not decode; native results are 1x1 and carry the decoded ad |
| ResponseInterpreter.KeptBids | modules/rtbhouseBidAdapter.js:72-75 | the kept bids are exactly the bids with a non-zero price |
| ResponseInterpreter.KeptBidsAppend | modules/rtbhouseBidAdapter.js:72-75 | filtering distributes over concatenation, so kept bids stay in response order |
| ResponseInterpreter.UndecodableIsNativeFailure | modules/rtbhouseBidAdapter.js:76-80 | a bid fails to be interpreted exactly when its markup is native and does not decode |
| ResponseInterpreter.InterpretAll | modules/rtbhouseBidAdapter.js:72-81 | the push loop gives one result per bid visited; InterpretAllFailure and InterpretAllPointwise say when it fails and what each result is |
| ResponseInterpreter.InterpretBids | modules/rtbhouseBidAdapter.js:71-82 | the `forEach` over the response: on success one result per non-zero bid; InterpretResponse states the full contract |
| ResponseInterpreter.InterpretAllFailure | modules/rtbhouseBidAdapter.js:72-81 | the loop fails iff one of the bids it visits fails |
| ResponseInterpreter.InterpretAllPointwise | modules/rtbhouseBidAdapter.js:72-81 | on success there is one result per visited bid, in order, each that bid's interpretation |
| ResponseInterpreter.InterpretResponse | modules/rtbhouseBidAdapter.js:65-83 | a body that is not an array gives no bids; otherwise the call fails iff some non-zero bid's markup fails to decode; on success there is one result per non-zero bid, in order, each that bid's interpretation (banner size from the bid, native ad decoded from the markup), carrying its identifiers and non-zero price, native iff the markup starts with `{"native`, banners carrying the markup, native bids 1x1 |

## Left out

- `registerBidder` and the adapter's static descriptor (bidder code, supported
  media types) are framework registration, not behaviour.
- `JSON.stringify` of the request and `JSON.parse` of native markup are not
  modelled. Parsing is the `parse` parameter.
- `encodeURIComponent` is the `encode` parameter. Its percent-encoding rules
  are not modelled.
- `utils.getTopWindowUrl()` and `utils.getOrigin()` read the browser. They are
  the `page` and `origin` parameters.
- `hmin` of an image request is a floating-point division and is not
  modelled. `wmin`, `w` and `h` are.
- Numeric publisher IDs and ad unit codes, which the source converts with
  `toString()`, are modelled as strings from the start.
- A `test` parameter that is not a number is modelled only as an optional
  integer. `x || 0` is modelled by JavaScript truthiness on integers.
- The `originalRequest` argument of `interpretResponse` is unused by the
  source.
- Missing inner fields of the native markup are not modelled. The model's
  markup always carries them as values. In the source:
  - a `title`, `img` or `data` object without `text`, `w`, `h` or `value`
    sets the field to `undefined`. The click-URL asset is the exception: its
    `value` is passed through `encodeURIComponent`;
  - a missing `img.url` or click-URL `data.value` is passed through
    `encodeURIComponent`, which gives the string "undefined";
  - a `native.link` without `url` likewise sets `clickUrl` to the string
    "undefined".
- An undecodable server bid (non-string `adm`, missing `price`) is not
  modelled. Bids are well-typed records.
- RequestBuilder.BuildRequests: the inputs on which the source throws are
  preconditions rather than error results. These are:
  - no slots at all;
  - a banner slot with no sizes;
  - a native slot with no native parameters;
  - an image whose `aspect_ratios` is an empty array;
  - a first slot without a publisher ID. This only arises for slots that
    `isBidRequestValid` rejects.
- RequestBuilder.MapBanner: requires a first size pair when a banner is
  wanted, for the same reason.
- RequestBuilder.MapNative: requires native parameters, whose images can be
  read, when a native ad is wanted, for the same reason.
- RequestBuilder.MapNativeImage: requires a first aspect ratio when
  `aspect_ratios` is present, for the same reason.

=== FILE: bidrequest.dfy ===
/**
 * The framework's bid-request descriptor (one ad slot), as far as the
 * adapter reads it. Absent JavaScript properties are `None`; an object-valued
 * property that is present is always truthy.
 */
module BidRequest {
  import opened Wrappers

  /** One `[width, height]` pair of a slot's `sizes`. */
  datatype Size = Size(w: int, h: int)

  /** The adapter-specific `params` bag. */
  datatype Params = Params(
    region: Option<string>,
    publisherId: Option<string>,
    test: Option<int>)

  /**
   * Per-asset configuration of a native slot. `required` and `request` are the
   * truthiness of the like-named properties; `len` is the optional length limit.
   */
  datatype AssetParams = AssetParams(required: bool, request: bool, len: Option<int>)

  /** One entry of an image's `aspect_ratios`. */
  datatype AspectRatio = AspectRatio(minWidth: Option<int>, ratioWidth: int, ratioHeight: int)

  /** An image's `sizes`: either a single pair or a list of pairs. */
  datatype ImageSizes = SinglePair(size: Size) | PairList(sizes: seq<Size>)

  /** Configuration of a native image or icon. */
  datatype ImageParams = ImageParams(
    required: bool,
    aspectRatios: Option<seq<AspectRatio>>,
    sizes: Option<ImageSizes>)

  /** The native parameter set (`nativeParams` or `mediaTypes.native`). */
  datatype NativeParams = NativeParams(
    title: Option<AssetParams>,
    image: Option<ImageParams>,
    icon: Option<ImageParams>,
    sponsoredBy: Option<AssetParams>,
    body: Option<AssetParams>,
    clickUrl: Option<AssetParams>,
    cta: Option<AssetParams>)

  /** The `mediaTypes` object: whether `mediaTypes.banner` is set, and `mediaTypes.native`. */
  datatype MediaTypes = MediaTypes(banner: bool, native: Option<NativeParams>)

  /** One slot handed to the adapter. */
  datatype Slot = Slot(
    bidId: string,
    auctionId: string,
    adUnitCode: string,
    sizes: seq<Size>,
    mediaType: Option<string>,
    mediaTypes: Option<MediaTypes>,
    nativeParams: Option<NativeParams>,
    params: Params)

  /** The slot asks for a banner: explicitly, through `mediaTypes.banner`, or by saying nothing. */
  predicate WantsBanner(slot: Slot) {
    || slot.mediaType == Some("banner")
    || (slot.mediaTypes.Some? && slot.mediaTypes.value.banner)
    || (!TruthyString(slot.mediaType) && slot.mediaTypes.None?)
  }

  /** The slot asks for a native ad: explicitly or through `mediaTypes.native`. */
  predicate WantsNative(slot: Slot) {
    || slot.mediaType == Some("native")
    || (slot.mediaTypes.Some? && slot.mediaTypes.value.native.Some?)
  }

  /** `slot.nativeParams || slot.mediaTypes.native`. */
  function NativeParamsOf(slot: Slot): Option<NativeParams> {
    if slot.nativeParams.Some? then slot.nativeParams
    else if slot.mediaTypes.Some? then slot.mediaTypes.value.native
    else None
  }

  /** An image whose `aspect_ratios` is present has a first entry to read. */
  predicate ImageParamsWellFormed(img: Option<ImageParams>) {
    img.Some? && img.value.aspectRatios.Some? ==> |img.value.aspectRatios.value| > 0
  }

  predicate NativeParamsWellFormed(p: NativeParams) {
    ImageParamsWellFormed(p.image) && ImageParamsWellFormed(p.icon)
  }

  /** A banner slot has a first size to read. */
  predicate BannerWellFormed(slot: Slot) {
    WantsBanner(slot) ==> |slot.sizes| > 0
  }

  /** A native slot has a native parameter set whose images can be read. */
  predicate NativeWellFormed(slot: Slot) {
    WantsNative(slot) ==> NativeParamsOf(slot).Some? && NativeParamsWellFormed(NativeParamsOf(slot).value)
  }

  /** The slot can be mapped without a fault. */
  predicate SlotWellFormed(slot: Slot) {
    BannerWellFormed(slot) && NativeWellFormed(slot)
  }
}

=== FILE: consent.dfy ===
/**
 * Normalisation of the GDPR consent string sent to the endpoint: the base64
 * characters `+` and `/` become their URL-safe counterparts `-` and `_`
 * (section 5 of RFC 4648), and the trailing `=` padding (section 3.2) is dropped.
 */
module Consent {

  /** The URL-safe base64 counterpart of one character. */
  function UrlSafe(c: char): char {
    if c == '+' then '-' else if c == '/' then '_' else c
  }

  /** Every occurrence of `from` replaced by `to` (a global single-character replace). */
  function ReplaceAll(s: string, from: char, to: char): (r: string)
    ensures |r| == |s|
    ensures forall i :: 0 <= i < |s| ==> r[i] == (if s[i] == from then to else s[i])
  {
    if s == [] then [] else [if s[0] == from then to else s[0]] + ReplaceAll(s[1..], from, to)
  }

  /** `s` without its trailing run of `c` (the one match of `c+$`, if any). */
  function StripTrailing(s: string, c: char): (r: string)
    ensures |r| <= |s| && r == s[..|r|]
    ensures forall i :: |r| <= i < |s| ==> s[i] == c
    ensures |r| == 0 || r[|r| - 1] != c
  {
    if |s| > 0 && s[|s| - 1] == c then StripTrailing(s[..|s| - 1], c) else s
  }

  /** The consent string as sent: `+` to `-`, then `/` to `_`, then trailing `=` removed. */
  function NormalizeConsent(s: string): (r: string)
    ensures |r| <= |s|
    ensures forall i :: 0 <= i < |r| ==> r[i] == UrlSafe(s[i])
    ensures forall i :: |r| <= i < |s| ==> s[i] == '='
    ensures |r| == 0 || r[|r| - 1] != '='
    ensures '+' !in r && '/' !in r
  {
    var safe := ReplaceAll(ReplaceAll(s, '+', '-'), '/', '_');
    StripTrailing(safe, '=')
  }

  /**
   * The postconditions of `NormalizeConsent` pin its result down: any string
   * that maps `s` character-wise to the URL-safe alphabet, drops only `=`
   * characters from the end, and does not end in `=` is the normalised string.
   */
  lemma NormalizeConsentUnique(s: string, t: string)
    requires |t| <= |s|
    requires forall i :: 0 <= i < |t| ==> t[i] == UrlSafe(s[i])
    requires forall i :: |t| <= i < |s| ==> s[i] == '='
    requires |t| == 0 || t[|t| - 1] != '='
    ensures t == NormalizeConsent(s)
  {
    var r := NormalizeConsent(s);
    assert |r| == |t|;
  }

  /** Normalising twice is normalising once. */
  lemma NormalizeConsentIdempotent(s: string)
    ensures NormalizeConsent(NormalizeConsent(s)) == NormalizeConsent(s)
  {
    var r := NormalizeConsent(s);
    forall i | 0 <= i < |r|
      ensures UrlSafe(r[i]) == r[i]
    {
      assert r[i] in r;
    }
    NormalizeConsentUnique(r, r);
  }

  /** A consent string with both unsafe characters and padding. */
  lemma NormalizeConsentExample()
    ensures NormalizeConsent("AB+/=") == "AB-_"
  {
    NormalizeConsentUnique("AB+/=", "AB-_");
  }
}

=== FILE: nativedecoder.dfy ===
/**
 * Decoding of native ad markup returned by the endpoint into the framework's
 * native structure. The markup is taken already parsed (`NativeMarkup`);
 * `encode` stands for the percent-encoding applied to asset and click URLs.
 */
module NativeDecoder {
  import opened Wrappers
  import opened OpenRtb

  /** An asset's `img` object. */
  datatype ImgValue = ImgValue(url: string, w: int, h: int)

  /**
   * One entry of the markup's `assets`: its ID and whichever of `title.text`,
   * `img` and `data.value` it carries.
   */
  datatype ResponseAsset = ResponseAsset(id: int, title: Option<string>, img: Option<ImgValue>, data: Option<string>)

  /** The `native` object of the markup: `link.url`, `imptrackers` and `assets`. */
  datatype NativeMarkup = NativeMarkup(linkUrl: string, imptrackers: Option<seq<string>>, assets: seq<ResponseAsset>)

  /** A decoded image or icon. */
  datatype NativeImage = NativeImage(url: string, width: int, height: int)

  /** The framework's native structure. */
  datatype NativeAd = NativeAd(
    clickUrl: string,
    impressionTrackers: Option<seq<string>>,
    title: Option<string>,
    image: Option<NativeImage>,
    icon: Option<NativeImage>,
    body: Option<string>,
    sponsoredBy: Option<string>,
    cta: Option<string>)

  /** Decoding throws: the markup does not parse, or a recognised asset lacks the object its ID calls for. */
  datatype DecodeError = MalformedMarkup

  /** The asset carries the object its ID is decoded from; unknown IDs need nothing. */
  predicate Decodable(a: ResponseAsset) {
    match KindOf(a.id)
    case None => true
    case Some(k) =>
      match k
      case Title => a.title.Some?
      case Image => a.img.Some?
      case Icon => a.img.Some?
      case _ => a.data.Some?
  }

  predicate AllDecodable(assets: seq<ResponseAsset>) {
    forall i :: 0 <= i < |assets| ==> Decodable(assets[i])
  }

  /** `a` and `b` agree on every field except the one element `k` (if any) decodes into. */
  predicate AgreeOutside(a: NativeAd, b: NativeAd, k: Option<AssetKind>) {
    && a.impressionTrackers == b.impressionTrackers
    && (k != Some(ClickUrl) ==> a.clickUrl == b.clickUrl)
    && (k != Some(Title) ==> a.title == b.title)
    && (k != Some(Image) ==> a.image == b.image)
    && (k != Some(Icon) ==> a.icon == b.icon)
    && (k != Some(Body) ==> a.body == b.body)
    && (k != Some(Sponsored) ==> a.sponsoredBy == b.sponsoredBy)
    && (k != Some(Cta) ==> a.cta == b.cta)
  }

  /** The structure before any asset is applied: the encoded link URL and the trackers, as given. */
  function InitialAd(m: NativeMarkup, encode: string -> string): (ad: NativeAd)
    ensures ad.clickUrl == encode(m.linkUrl) && ad.impressionTrackers == m.imptrackers
    ensures ad.title.None? && ad.image.None? && ad.icon.None?
    ensures ad.body.None? && ad.sponsoredBy.None? && ad.cta.None?
  {
    NativeAd(encode(m.linkUrl), m.imptrackers, None, None, None, None, None, None)
  }

  /** One step of the switch on the asset ID. */
  function ApplyAsset(ad: NativeAd, a: ResponseAsset, encode: string -> string): (r: Result<NativeAd, DecodeError>)
    ensures r.Success? <==> Decodable(a)
    ensures KindOf(a.id).None? ==> r == Success(ad)
    ensures r.Success? ==> AgreeOutside(ad, r.value, KindOf(a.id))
    ensures r.Success? && a.id == AssetId(Title) ==> r.value.title == a.title
    ensures r.Success? && a.id == AssetId(Image) ==>
      r.value.image == Some(NativeImage(encode(a.img.value.url), a.img.value.w, a.img.value.h))
    ensures r.Success? && a.id == AssetId(Icon) ==>
      r.value.icon == Some(NativeImage(encode(a.img.value.url), a.img.value.w, a.img.value.h))
    ensures r.Success? && a.id == AssetId(Body) ==> r.value.body == a.data
    ensures r.Success? && a.id == AssetId(Sponsored) ==> r.value.sponsoredBy == a.data
    ensures r.Success? && a.id == AssetId(ClickUrl) ==> r.value.clickUrl == encode(a.data.value)
    ensures r.Success? && a.id == AssetId(Cta) ==> r.value.cta == a.data
  {
    match KindOf(a.id)
    case None => Success(ad)
    case Some(Title) =>
      if a.title.None? then Failure(MalformedMarkup) else Success(ad.(title := Some(a.title.value)))
    case Some(Image) =>
      if a.img.None? then Failure(MalformedMarkup)
      else Success(ad.(image := Some(NativeImage(encode(a.img.value.url), a.img.value.w, a.img.value.h))))
    case Some(Icon) =>
      if a.img.None? then Failure(MalformedMarkup)
      else Success(ad.(icon := Some(NativeImage(encode(a.img.value.url), a.img.value.w, a.img.value.h))))
    case Some(Body) =>
      if a.data.None? then Failure(MalformedMarkup) else Success(ad.(body := Some(a.data.value)))
    case Some(Sponsored) =>
      if a.data.None? then Failure(MalformedMarkup) else Success(ad.(sponsoredBy := Some(a.data.value)))
    case Some(ClickUrl) =>
      if a.data.None? then Failure(MalformedMarkup) else Success(ad.(clickUrl := encode(a.data.value)))
    case Some(Cta) =>
      if a.data.None? then Failure(MalformedMarkup) else Success(ad.(cta := Some(a.data.value)))
  }

  /** The assets applied left to right, as the `forEach` does; the first failure ends the decoding. */
  function DecodeAssets(init: NativeAd, assets: seq<ResponseAsset>, encode: string -> string)
    : (r: Result<NativeAd, DecodeError>)
    ensures r.Success? <==> AllDecodable(assets)
    ensures r.Success? ==> r.value.impressionTrackers == init.impressionTrackers
  {
    if assets == [] then Success(init)
    else
      assert forall j :: 0 <= j < |assets| - 1 ==> assets[..|assets| - 1][j] == assets[j];
      match DecodeAssets(init, assets[..|assets| - 1], encode)
      case Failure(e) => Failure(e)
      case Success(ad) => ApplyAsset(ad, assets[|assets| - 1], encode)
  }

  /** The last asset carrying `id`, if any. */
  function LastWithId(assets: seq<ResponseAsset>, id: int): (r: Option<ResponseAsset>)
    ensures r.None? <==> forall i :: 0 <= i < |assets| ==> assets[i].id != id
    ensures r.Some? ==> r.value in assets && r.value.id == id
  {
    if assets == [] then None
    else if assets[|assets| - 1].id == id then Some(assets[|assets| - 1])
    else
      var prefix := assets[..|assets| - 1];
      assert forall j :: 0 <= j < |prefix| ==> prefix[j] == assets[j];
      LastWithId(prefix, id)
  }

  /** The asset `LastWithId` finds is followed by no other asset with the same ID. */
  lemma {:induction false} LastWithIdIsLast(assets: seq<ResponseAsset>, id: int)
    requires LastWithId(assets, id).Some?
    ensures exists i ::
      && 0 <= i < |assets| && assets[i] == LastWithId(assets, id).value
      && forall j :: i < j < |assets| ==> assets[j].id != id
  {
    var n := |assets| - 1;
    if assets[n].id != id {
      var prefix := assets[..n];
      assert LastWithId(assets, id) == LastWithId(prefix, id);
      LastWithIdIsLast(prefix, id);
      var i :| 0 <= i < |prefix| && prefix[i] == LastWithId(prefix, id).value
        && forall j :: i < j < |prefix| ==> prefix[j].id != id;
      assert assets[i] == prefix[i];
      forall j | i < j < |assets|
        ensures assets[j].id != id
      {
        if j < n {
          assert assets[j] == prefix[j];
        }
      }
    } else {
      assert assets[n] == LastWithId(assets, id).value;
    }
  }


  /**
   * The decoded structure described field by field, without the fold: each
   * field comes from the last asset with its element's ID, or from `init`
   * when there is none.
   */
  function ReferenceDecode(init: NativeAd, assets: seq<ResponseAsset>, encode: string -> string): NativeAd
    requires AllDecodable(assets)
  {
    NativeAd(
      match LastWithId(assets, AssetId(ClickUrl)) case Some(a) => encode(a.data.value) case None => init.clickUrl,
      init.impressionTrackers,
      match LastWithId(assets, AssetId(Title)) case Some(a) => a.title case None => init.title,
      match LastWithId(assets, AssetId(Image))
        case Some(a) => Some(NativeImage(encode(a.img.value.url), a.img.value.w, a.img.value.h))
        case None => init.image,
      match LastWithId(assets, AssetId(Icon))
        case Some(a) => Some(NativeImage(encode(a.img.value.url), a.img.value.w, a.img.value.h))
        case None => init.icon,
      match LastWithId(assets, AssetId(Body)) case Some(a) => a.data case None => init.body,
      match LastWithId(assets, AssetId(Sponsored)) case Some(a) => a.data case None => init.sponsoredBy,
      match LastWithId(assets, AssetId(Cta)) case Some(a) => a.data case None => init.cta)
  }

  /** Appending one asset to the list: the reference description changes exactly as one fold step does. */
  lemma ReferenceStep(init: NativeAd, assets: seq<ResponseAsset>, encode: string -> string)
    requires assets != [] && AllDecodable(assets)
    ensures AllDecodable(assets[..|assets| - 1])
    ensures ApplyAsset(ReferenceDecode(init, assets[..|assets| - 1], encode), assets[|assets| - 1], encode)
      == Success(ReferenceDecode(init, assets, encode))
  {
    var n := |assets| - 1;
    var p := assets[..n];
    var x := assets[n];
    assert forall j :: 0 <= j < n ==> p[j] == assets[j];
    assert Decodable(x);
    forall id
      ensures LastWithId(assets, id) == if x.id == id then Some(x) else LastWithId(p, id)
    {
    }
    var before := ReferenceDecode(init, p, encode);
    var after := ReferenceDecode(init, assets, encode);
    var r := ApplyAsset(before, x, encode);
    assert r.Success?;
    match KindOf(x.id)
    case None =>
      assert r.value == after;
    case Some(k) =>
      KindOfInvertsAssetId(k, x.id);
      assert r.value == after;
  }

  /**
   * The fold agrees with the reference description: it fails iff some asset
   * lacks the object its ID calls for, and otherwise each field holds the last
   * asset of its ID (unknown IDs contribute nothing).
   */
  lemma {:induction false} DecodeAssetsIsReference(init: NativeAd, assets: seq<ResponseAsset>, encode: string -> string)
    ensures DecodeAssets(init, assets, encode) ==
      if AllDecodable(assets) then Success(ReferenceDecode(init, assets, encode)) else Failure(MalformedMarkup)
  {
    if assets == [] {
      assert ReferenceDecode(init, assets, encode) == init;
    } else {
      var n := |assets| - 1;
      var p := assets[..n];
      DecodeAssetsIsReference(init, p, encode);
      assert forall j :: 0 <= j < n ==> p[j] == assets[j];
      assert AllDecodable(assets) <==> AllDecodable(p) && Decodable(assets[n]);
      if AllDecodable(assets) {
        ReferenceStep(init, assets, encode);
      }
    }
  }

  /** No two assets share an ID. */
  predicate DistinctIds(assets: seq<ResponseAsset>) {
    forall i, j :: 0 <= i < j < |assets| ==> assets[i].id != assets[j].id
  }

  /** Without repeated IDs, the last asset of an ID is simply the asset of that ID. */
  lemma LastWithIdOfDistinct(assets: seq<ResponseAsset>, id: int, x: ResponseAsset)
    requires DistinctIds(assets)
    ensures LastWithId(assets, id) == Some(x) <==> x in assets && x.id == id
  {
    if x in assets && x.id == id {
      var i :| 0 <= i < |assets| && assets[i] == x;
      var r := LastWithId(assets, id);
      assert r.Some?;
      var j :| 0 <= j < |assets| && assets[j] == r.value && assets[j].id == id;
      assert i == j;
    }
  }

  /** Two asset lists with the same members and no repeated IDs have the same last asset for every ID. */
  lemma SameMembersSameLast(a: seq<ResponseAsset>, b: seq<ResponseAsset>, id: int)
    requires DistinctIds(a) && DistinctIds(b)
    requires forall x :: x in a <==> x in b
    ensures LastWithId(a, id) == LastWithId(b, id)
  {
    var ra := LastWithId(a, id);
    var rb := LastWithId(b, id);
    if ra.Some? {
      LastWithIdOfDistinct(a, id, ra.value);
      LastWithIdOfDistinct(b, id, ra.value);
    } else if rb.Some? {
      LastWithIdOfDistinct(b, id, rb.value);
      LastWithIdOfDistinct(a, id, rb.value);
    }
  }

  /** The reference description depends on the assets only through their last asset per ID. */
  lemma SameLastSameReference(init: NativeAd, a: seq<ResponseAsset>, b: seq<ResponseAsset>, encode: string -> string)
    requires AllDecodable(a) && AllDecodable(b)
    requires forall id :: LastWithId(a, id) == LastWithId(b, id)
    ensures ReferenceDecode(init, a, encode) == ReferenceDecode(init, b, encode)
  {
  }

  /** Without repeated IDs, every asset occurs exactly once. */
  lemma DistinctIdsOccurOnce(a: seq<ResponseAsset>, x: ResponseAsset)
    requires DistinctIds(a) && x in a
    ensures multiset(a)[x] == 1
  {
    var p :| 0 <= p < |a| && a[p] == x;
    assert a == a[..p] + [x] + a[p + 1..];
    forall q | 0 <= q < p
      ensures a[..p][q] != x
    {
      assert a[..p][q] == a[q];
    }
    var after := a[p + 1..];
    forall q | 0 <= q < |after|
      ensures after[q] != x
    {
      assert after[q] == a[p + 1 + q];
    }
  }

  /** Two positions holding the same asset make it occur at least twice. */
  lemma SamePositionsCountTwice(b: seq<ResponseAsset>, i: int, j: int)
    requires 0 <= i < j < |b|
    ensures b[i] == b[j] ==> multiset(b)[b[i]] >= 2
  {
    assert b == b[..j] + b[j..];
    assert b[..j][i] == b[i];
    assert b[j..][0] == b[j];
  }

  /** A rearrangement of an asset list without repeated IDs has none either. */
  lemma DistinctIdsPermutation(a: seq<ResponseAsset>, b: seq<ResponseAsset>)
    requires multiset(a) == multiset(b) && DistinctIds(a)
    ensures DistinctIds(b)
  {
    forall i, j | 0 <= i < j < |b|
      ensures b[i].id != b[j].id
    {
      assert b[i] in multiset(a) && b[j] in multiset(a);
      DistinctIdsOccurOnce(a, b[i]);
      SamePositionsCountTwice(b, i, j);
      assert b[i] != b[j];
      var p :| 0 <= p < |a| && a[p] == b[i];
      var q :| 0 <= q < |a| && a[q] == b[j];
      assert p != q;
      if p < q {
        assert a[p].id != a[q].id;
      } else {
        assert a[q].id != a[p].id;
      }
    }
  }

  /**
   * When no two assets share an ID, their order does not matter: any
   * rearrangement of the asset list decodes to the same result.
   */
  lemma DecodeAssetsOrderIndependent(init: NativeAd, a: seq<ResponseAsset>, b: seq<ResponseAsset>, encode: string -> string)
    requires multiset(a) == multiset(b)
    requires DistinctIds(a)
    ensures DecodeAssets(init, a, encode) == DecodeAssets(init, b, encode)
  {
    DistinctIdsPermutation(a, b);
    DecodeAssetsIsReference(init, a, encode);
    DecodeAssetsIsReference(init, b, encode);
    forall x
      ensures x in a <==> x in b
    {
      assert x in a <==> x in multiset(a);
      assert x in b <==> x in multiset(b);
    }
    assert AllDecodable(a) <==> AllDecodable(b) by {
      if AllDecodable(a) {
        forall i | 0 <= i < |b|
          ensures Decodable(b[i])
        {
          assert b[i] in a;
        }
      }
      if AllDecodable(b) {
        forall i | 0 <= i < |a|
          ensures Decodable(a[i])
        {
          assert a[i] in b;
        }
      }
    }
    if AllDecodable(a) {
      forall id
        ensures LastWithId(a, id) == LastWithId(b, id)
      {
        SameMembersSameLast(a, b, id);
      }
      SameLastSameReference(init, a, b, encode);
    }
  }

  /** The assets whose ID is in the enumeration. */
  function KnownAssets(assets: seq<ResponseAsset>): (known: seq<ResponseAsset>)
    ensures |known| <= |assets|
    ensures forall x :: x in known <==> x in assets && KindOf(x.id).Some?
  {
    if assets == [] then []
    else
      var x := assets[|assets| - 1];
      var rest := KnownAssets(assets[..|assets| - 1]);
      assert assets == assets[..|assets| - 1] + [x];
      if KindOf(x.id).Some? then rest + [x] else rest
  }

  /** Assets with IDs outside the enumeration are ignored: dropping them changes nothing. */
  lemma {:induction false} UnknownAssetsIgnored(init: NativeAd, assets: seq<ResponseAsset>, encode: string -> string)
    ensures DecodeAssets(init, KnownAssets(assets), encode) == DecodeAssets(init, assets, encode)
  {
    if assets != [] {
      var n := |assets| - 1;
      var x := assets[n];
      UnknownAssetsIgnored(init, assets[..n], encode);
      if KindOf(x.id).Some? {
        var known := KnownAssets(assets[..n]);
        assert (known + [x])[..|known|] == known;
      }
    }
  }

  /** Filtering distributes over concatenation, so the known assets keep their order and multiplicity. */
  lemma {:induction false} KnownAssetsAppend(a: seq<ResponseAsset>, b: seq<ResponseAsset>)
    ensures KnownAssets(a + b) == KnownAssets(a) + KnownAssets(b)
    decreases |b|
  {
    if b == [] {
      assert a + b == a;
    } else {
      var n := |b| - 1;
      assert (a + b)[..|a + b| - 1] == a + b[..n];
      assert (a + b)[|a + b| - 1] == b[n];
      KnownAssetsAppend(a, b[..n]);
    }
  }

  /**
   * Native markup decoded into the framework's structure. `parse` stands for
   * `JSON.parse(adm).native` (`None` when it throws); `encode` for the URL
   * percent-encoding.
   */
  function InterpretNativeAd(adm: string, parse: string -> Option<NativeMarkup>, encode: string -> string)
    : (r: Result<NativeAd, DecodeError>)
    ensures parse(adm).None? ==> r.Failure?
    ensures parse(adm).Some? ==> (r.Success? <==> AllDecodable(parse(adm).value.assets))
    ensures r.Success? ==> r.value.impressionTrackers == parse(adm).value.imptrackers
  {
    match parse(adm)
    case None => Failure(MalformedMarkup)
    case Some(m) =>
      DecodeAssetsIsReference(InitialAd(m, encode), m.assets, encode);
      DecodeAssets(InitialAd(m, encode), m.assets, encode)
  }

  /**
   * Each field of a decoded native ad comes from the last asset with its ID;
   * a click-URL asset overrides the encoded link URL.
   */
  lemma InterpretNativeAdFields(adm: string, parse: string -> Option<NativeMarkup>, encode: string -> string)
    requires InterpretNativeAd(adm, parse, encode).Success?
    ensures var m := parse(adm).value;
      InterpretNativeAd(adm, parse, encode).value.clickUrl ==
        match LastWithId(m.assets, AssetId(ClickUrl))
        case Some(a) => encode(a.data.value)
        case None => encode(m.linkUrl)
    ensures InterpretNativeAd(adm, parse, encode).value ==
      ReferenceDecode(InitialAd(parse(adm).value, encode), parse(adm).value.assets, encode)
  {
    var m := parse(adm).value;
    DecodeAssetsIsReference(InitialAd(m, encode), m.assets, encode);
  }

  /** A title and an image decode to the title text and the encoded image URL. */
  lemma TitleAndImageExample(adm: string, parse: string -> Option<NativeMarkup>, encode: string -> string)
    requires parse(adm) == Some(NativeMarkup("http://click", Some(["http://t"]), [
      ResponseAsset(AssetId(Title), Some("T"), None, None),
      ResponseAsset(AssetId(Image), None, Some(ImgValue("http://x/y", 300, 250)), None)]))
    ensures InterpretNativeAd(adm, parse, encode).Success?
    ensures InterpretNativeAd(adm, parse, encode).value.title == Some("T")
    ensures InterpretNativeAd(adm, parse, encode).value.image == Some(NativeImage(encode("http://x/y"), 300, 250))
    ensures InterpretNativeAd(adm, parse, encode).value.clickUrl == encode("http://click")
  {
    var m := parse(adm).value;
    assert AllDecodable(m.assets);
    InterpretNativeAdFields(adm, parse, encode);
  }
}

=== FILE: openrtb.dfy ===
/**
 * The OpenRTB Native Ads 1.1 codes the adapter uses, and the asset-ID
 * enumeration shared by the request builder (which emits asset IDs) and the
 * native decoder (which switches on them), so the two directions cannot drift.
 */
module OpenRtb {
  import opened Wrappers

  /** Image asset types, section 7.4 of OpenRTB Native Ads 1.1. */
  const ImageTypeIcon: int := 1
  const ImageTypeMain: int := 3

  /** Data asset types, section 7.3 of OpenRTB Native Ads 1.1 (501 is exchange-specific). */
  const DataTypeSponsored: int := 1
  const DataTypeDesc: int := 2
  const DataTypeCtaText: int := 12
  const DataTypeClickUrl: int := 501

  /** The native elements the endpoint accepts. */
  datatype AssetKind = Title | Image | Icon | Body | Sponsored | ClickUrl | Cta

  /** The asset ID agreed with the endpoint for each element. */
  function AssetId(k: AssetKind): int {
    match k
    case Title => 1
    case Image => 2
    case Icon => 3
    case Body => 4
    case Sponsored => 5
    case ClickUrl => 6
    case Cta => 7
  }

  /** The element an asset ID stands for; IDs outside the enumeration name none. */
  function KindOf(id: int): (r: Option<AssetKind>)
    ensures r.Some? <==> 1 <= id <= 7
  {
    if id == 1 then Some(Title)
    else if id == 2 then Some(Image)
    else if id == 3 then Some(Icon)
    else if id == 4 then Some(Body)
    else if id == 5 then Some(Sponsored)
    else if id == 6 then Some(ClickUrl)
    else if id == 7 then Some(Cta)
    else None
  }

  /** `KindOf` inverts `AssetId`, in both directions. */
  lemma KindOfInvertsAssetId(k: AssetKind, id: int)
    ensures KindOf(AssetId(k)) == Some(k)
    ensures KindOf(id) == Some(k) <==> id == AssetId(k)
  {
  }

  /** Distinct elements have distinct asset IDs. */
  lemma AssetIdInjective(k1: AssetKind, k2: AssetKind)
    ensures AssetId(k1) == AssetId(k2) <==> k1 == k2
  {
    KindOfInvertsAssetId(k1, AssetId(k2));
  }

  /** The position of an element in `EmissionOrder`. */
  function Rank(k: AssetKind): nat {
    match k
    case Title => 0
    case Image => 1
    case Icon => 2
    case Sponsored => 3
    case Body => 4
    case ClickUrl => 5
    case Cta => 6
  }

  /** The rank of an asset ID: its element's rank, or 7 for an unknown ID. */
  function RankOfId(id: int): nat {
    match KindOf(id)
    case Some(k) => Rank(k)
    case None => 7
  }

  /** The element at each position of the emission order (positions past the end give the last). */
  function KindAtRank(i: int): AssetKind {
    if i == 0 then Title
    else if i == 1 then Image
    else if i == 2 then Icon
    else if i == 3 then Sponsored
    else if i == 4 then Body
    else if i == 5 then ClickUrl
    else Cta
  }

  /** The elements from position `i` of the emission order on. */
  function EmissionFrom(i: nat): (order: seq<AssetKind>)
    requires i <= 7
    ensures |order| == 7 - i
    ensures forall j :: 0 <= j < |order| ==> order[j] == KindAtRank(i + j)
    decreases 7 - i
  {
    if i == 7 then [] else [KindAtRank(i)] + EmissionFrom(i + 1)
  }

  /** The order in which the request builder emits assets: title, image, icon, sponsored, body, click URL, CTA. */
  const EmissionOrder: seq<AssetKind> := EmissionFrom(0)

  /** `Rank` and `EmissionOrder` describe the same order, and each element appears once. */
  lemma RankIsEmissionPosition(k: AssetKind)
    ensures |EmissionOrder| == 7
    ensures Rank(k) < |EmissionOrder| && EmissionOrder[Rank(k)] == k
    ensures forall i :: 0 <= i < |EmissionOrder| ==> Rank(EmissionOrder[i]) == i
  {
  }
}

=== FILE: requestbuilder.dfy ===
/**
 * Construction of the OpenRTB request from a batch of valid slots: one Imp per
 * slot (banner and/or native), the Site object, currency, test flag and the
 * GDPR extension blocks.
 */
module RequestBuilder {
  import opened Wrappers
  import opened OpenRtb
  import opened BidRequest
  import Validator
  import Consent

  /** One entry of a banner's `format` list. */
  datatype Format = Format(w: int, h: int)

  datatype Banner = Banner(w: int, h: int, format: seq<Format>)

  /** The `img` object of an image or icon asset request (`hmin` is not modelled). */
  datatype Img = Img(imgType: int, wmin: Option<int>, w: Option<int>, h: Option<int>)

  /** The type-specific part of an asset request: `title`, `img` or `data`. */
  datatype AssetPayload =
    | TitleReq(titleLen: int)
    | ImgReq(img: Img)
    | DataReq(dataType: int, len: Option<int>)

  datatype AssetRequest = AssetRequest(id: int, required: int, payload: AssetPayload)

  /** The Imp's `native` object: `{request: {assets}, ver}`. */
  datatype Native = Native(assets: seq<AssetRequest>, ver: string)

  datatype Imp = Imp(id: string, banner: Option<Banner>, native: Option<Native>, tagid: string)

  datatype Site = Site(publisherId: string, page: string, name: string)

  /** `regs.ext` and `user.ext`. */
  datatype Regs = Regs(gdpr: int)
  datatype User = User(consent: string)

  datatype OrtbRequest = OrtbRequest(
    id: string,
    imp: seq<Imp>,
    site: Site,
    cur: seq<string>,
    test: int,
    regs: Option<Regs>,
    user: Option<User>)

  /** The request handed to the transport; the body is kept as the structured object. */
  datatype ServerRequest = ServerRequest(httpMethod: string, url: string, data: OrtbRequest)

  /** The auction-wide consent context. `gdprApplies` is its truthiness. */
  datatype GdprConsent = GdprConsent(gdprApplies: bool, consentString: Option<string>)
  datatype BidderRequest = BidderRequest(gdprConsent: Option<GdprConsent>)

  /** `required ? 1 : 0`. */
  function Flag(b: bool): int {
    if b then 1 else 0
  }

  /** Each size pair becomes a `format` entry, in order. */
  function MapFormats(sizes: seq<Size>): (formats: seq<Format>)
    ensures |formats| == |sizes|
    ensures forall k :: 0 <= k < |sizes| ==> formats[k] == Format(sizes[k].w, sizes[k].h)
  {
    if sizes == [] then [] else [Format(sizes[0].w, sizes[0].h)] + MapFormats(sizes[1..])
  }

  /** The Imp's banner: present iff the slot asks for one; sized by the first pair, `format` mirrors `sizes`. */
  function MapBanner(slot: Slot): (banner: Option<Banner>)
    requires BannerWellFormed(slot)
    ensures banner.Some? <==>
      || slot.mediaType == Some("banner")
      || (slot.mediaTypes.Some? && slot.mediaTypes.value.banner)
      || ((slot.mediaType.None? || slot.mediaType == Some("")) && slot.mediaTypes.None?)
    ensures banner.Some? ==>
      && banner.value.w == slot.sizes[0].w
      && banner.value.h == slot.sizes[0].h
      && |banner.value.format| == |slot.sizes|
      && forall k :: 0 <= k < |slot.sizes| ==>
           banner.value.format[k].w == slot.sizes[k].w && banner.value.format[k].h == slot.sizes[k].h
  {
    if WantsBanner(slot) then
      Some(Banner(slot.sizes[0].w, slot.sizes[0].h, MapFormats(slot.sizes)))
    else
      None
  }

  /** The `img` object of an image or icon asset. */
  function MapNativeImage(image: ImageParams, imgType: int): (img: Img)
    requires ImageParamsWellFormed(Some(image))
    ensures img.imgType == imgType
    ensures img.wmin.Some? <==> image.aspectRatios.Some?
    ensures img.wmin.Some? ==>
      var minWidth := image.aspectRatios.value[0].minWidth;
      img.wmin.value == (if minWidth.Some? && minWidth.value != 0 then minWidth.value else 100)
    ensures img.w.Some? <==> img.h.Some?
    ensures image.sizes.None? ==> img.w.None?
    ensures image.sizes.Some? && image.sizes.value.SinglePair? ==>
      img.w == Some(image.sizes.value.size.w) && img.h == Some(image.sizes.value.size.h)
    ensures image.sizes.Some? && image.sizes.value.PairList? ==>
      var list := image.sizes.value.sizes;
      if |list| > 0 then img.w == Some(list[0].w) && img.h == Some(list[0].h) else img.w.None?
  {
    var wmin :=
      if image.aspectRatios.Some? then Some(IntOr(image.aspectRatios.value[0].minWidth, 100)) else None;
    var size: Option<Size> :=
      match image.sizes
      case None => None
      case Some(SinglePair(s)) => Some(s)
      case Some(PairList(list)) => if |list| > 0 then Some(list[0]) else None;
    match size
    case Some(s) => Img(imgType, wmin, Some(s.w), Some(s.h))
    case None => Img(imgType, wmin, None, None)
  }

  /** The parameter set names element `k`. */
  predicate Requested(p: NativeParams, k: AssetKind) {
    match k
    case Title => p.title.Some?
    case Image => p.image.Some?
    case Icon => p.icon.Some?
    case Sponsored => p.sponsoredBy.Some?
    case Body => p.body.Some?
    case ClickUrl => p.clickUrl.Some?
    case Cta => p.cta.Some?
  }

  /** The `required` property declared for a requested element. */
  function DeclaredRequired(p: NativeParams, k: AssetKind): bool
    requires Requested(p, k)
  {
    match k
    case Title => p.title.value.required
    case Image => p.image.value.required
    case Icon => p.icon.value.required
    case Sponsored => p.sponsoredBy.value.required
    case Body => p.body.value.required
    case ClickUrl => p.clickUrl.value.required
    case Cta => p.cta.value.required
  }

  /** `len || undefined`. */
  function OptionalLen(len: Option<int>): Option<int> {
    if TruthyInt(len) then len else None
  }

  /**
   * The asset request for element `k`, when requested. The body asset's
   * `required` reads the `request` property, every other asset's reads `required`.
   */
  function MapAsset(p: NativeParams, k: AssetKind): (asset: Option<AssetRequest>)
    requires k == Image ==> ImageParamsWellFormed(p.image)
    requires k == Icon ==> ImageParamsWellFormed(p.icon)
    ensures asset.Some? <==> Requested(p, k)
    ensures asset.Some? ==> asset.value.id == AssetId(k)
    ensures asset.Some? ==> asset.value.required == 0 || asset.value.required == 1
    ensures asset.Some? && k == Body ==> (asset.value.required == 1 <==> p.body.value.request)
    ensures asset.Some? && k != Body ==> (asset.value.required == 1 <==> DeclaredRequired(p, k))
    ensures asset.Some? && k == Title ==>
      asset.value.payload == TitleReq(if TruthyInt(p.title.value.len) then p.title.value.len.value else 140)
    ensures asset.Some? && k == Image ==>
      asset.value.payload.ImgReq? && asset.value.payload.img == MapNativeImage(p.image.value, ImageTypeMain)
    ensures asset.Some? && k == Icon ==>
      asset.value.payload.ImgReq? && asset.value.payload.img == MapNativeImage(p.icon.value, ImageTypeIcon)
    ensures asset.Some? && k == Sponsored ==> asset.value.payload == DataReq(DataTypeSponsored, None)
    ensures asset.Some? && k == Body ==> asset.value.payload == DataReq(DataTypeDesc, OptionalLen(p.body.value.len))
    ensures asset.Some? && k == ClickUrl ==> asset.value.payload == DataReq(DataTypeClickUrl, None)
    ensures asset.Some? && k == Cta ==> asset.value.payload == DataReq(DataTypeCtaText, OptionalLen(p.cta.value.len))
  {
    match k
    case Title =>
      if p.title.None? then None
      else Some(AssetRequest(AssetId(Title), Flag(p.title.value.required), TitleReq(IntOr(p.title.value.len, 140))))
    case Image =>
      if p.image.None? then None
      else Some(AssetRequest(AssetId(Image), Flag(p.image.value.required),
                             ImgReq(MapNativeImage(p.image.value, ImageTypeMain))))
    case Icon =>
      if p.icon.None? then None
      else Some(AssetRequest(AssetId(Icon), Flag(p.icon.value.required),
                             ImgReq(MapNativeImage(p.icon.value, ImageTypeIcon))))
    case Sponsored =>
      if p.sponsoredBy.None? then None
      else Some(AssetRequest(AssetId(Sponsored), Flag(p.sponsoredBy.value.required), DataReq(DataTypeSponsored, None)))
    case Body =>
      if p.body.None? then None
      else Some(AssetRequest(AssetId(Body), Flag(p.body.value.request),
                             DataReq(DataTypeDesc, OptionalLen(p.body.value.len))))
    case ClickUrl =>
      if p.clickUrl.None? then None
      else Some(AssetRequest(AssetId(ClickUrl), Flag(p.clickUrl.value.required), DataReq(DataTypeClickUrl, None)))
    case Cta =>
      if p.cta.None? then None
      else Some(AssetRequest(AssetId(Cta), Flag(p.cta.value.required),
                             DataReq(DataTypeCtaText, OptionalLen(p.cta.value.len))))
  }

  /** The asset requests for the requested elements among `kinds`, in the order of `kinds`. */
  function EmitAssets(p: NativeParams, kinds: seq<AssetKind>): (assets: seq<AssetRequest>)
    requires NativeParamsWellFormed(p)
    ensures |assets| <= |kinds|
  {
    if kinds == [] then []
    else
      match MapAsset(p, kinds[0])
      case None => EmitAssets(p, kinds[1..])
      case Some(a) => [a] + EmitAssets(p, kinds[1..])
  }

  /** Every emitted asset carries the ID of one of `kinds`. */
  lemma {:induction false} EmitAssetsKinds(p: NativeParams, kinds: seq<AssetKind>)
    requires NativeParamsWellFormed(p)
    ensures forall i :: 0 <= i < |EmitAssets(p, kinds)| ==>
      KindOf(EmitAssets(p, kinds)[i].id).Some? && KindOf(EmitAssets(p, kinds)[i].id).value in kinds
  {
    if kinds != [] {
      EmitAssetsKinds(p, kinds[1..]);
      var rest := EmitAssets(p, kinds[1..]);
      match MapAsset(p, kinds[0])
      case None =>
      case Some(a) =>
        KindOfInvertsAssetId(kinds[0], a.id);
        var r := [a] + rest;
        forall i | 0 <= i < |r|
          ensures KindOf(r[i].id).Some? && KindOf(r[i].id).value in kinds
        {
          if i > 0 {
            assert r[i] == rest[i - 1];
          }
        }
    }
  }

  /** Every emitted asset is the request `MapAsset` builds for one of `kinds`. */
  lemma {:induction false} EmitAssetsSound(p: NativeParams, kinds: seq<AssetKind>)
    requires NativeParamsWellFormed(p)
    ensures forall i :: 0 <= i < |EmitAssets(p, kinds)| ==>
      var a := EmitAssets(p, kinds)[i];
      && KindOf(a.id).Some?
      && KindOf(a.id).value in kinds
      && MapAsset(p, KindOf(a.id).value) == Some(a)
  {
    if kinds != [] {
      EmitAssetsSound(p, kinds[1..]);
      var rest := EmitAssets(p, kinds[1..]);
      match MapAsset(p, kinds[0])
      case None =>
      case Some(a) =>
        KindOfInvertsAssetId(kinds[0], a.id);
        var r := [a] + rest;
        forall i | 0 <= i < |r|
          ensures KindOf(r[i].id).Some? && KindOf(r[i].id).value in kinds && MapAsset(p, KindOf(r[i].id).value) == Some(r[i])
        {
          if i > 0 {
            assert r[i] == rest[i - 1];
          }
        }
    }
  }

  /** Every requested element among `kinds` has an emitted asset carrying its ID. */
  lemma {:induction false} EmitAssetsComplete(p: NativeParams, kinds: seq<AssetKind>, k: AssetKind)
    requires NativeParamsWellFormed(p)
    requires k in kinds && Requested(p, k)
    ensures exists i :: 0 <= i < |EmitAssets(p, kinds)| && EmitAssets(p, kinds)[i].id == AssetId(k)
  {
    var rest := EmitAssets(p, kinds[1..]);
    if k == kinds[0] {
      assert EmitAssets(p, kinds)[0].id == AssetId(k);
    } else {
      EmitAssetsComplete(p, kinds[1..], k);
      var i :| 0 <= i < |rest| && rest[i].id == AssetId(k);
      if MapAsset(p, kinds[0]).Some? {
        assert EmitAssets(p, kinds)[i + 1] == rest[i];
      } else {
        assert EmitAssets(p, kinds)[i] == rest[i];
      }
    }
  }

  /** Kinds listed in strictly increasing emission rank. */
  predicate RankOrdered(kinds: seq<AssetKind>) {
    forall i, j :: 0 <= i < j < |kinds| ==> Rank(kinds[i]) < Rank(kinds[j])
  }

  /** The tail of a rank-ordered list is rank-ordered and ranks above its head. */
  lemma RankOrderedTail(kinds: seq<AssetKind>)
    requires kinds != [] && RankOrdered(kinds)
    ensures RankOrdered(kinds[1..])
    ensures forall k :: k in kinds[1..] ==> Rank(kinds[0]) < Rank(k)
  {
    forall k | k in kinds[1..]
      ensures Rank(kinds[0]) < Rank(k)
    {
      var m :| 0 <= m < |kinds[1..]| && kinds[1..][m] == k;
      assert kinds[m + 1] == k;
    }
  }

  /** When `kinds` follows the emission order, so do the emitted assets' IDs. */
  lemma {:induction false} EmitAssetsOrdered(p: NativeParams, kinds: seq<AssetKind>)
    requires NativeParamsWellFormed(p)
    requires RankOrdered(kinds)
    ensures forall i, j :: 0 <= i < j < |EmitAssets(p, kinds)| ==>
      RankOfId(EmitAssets(p, kinds)[i].id) < RankOfId(EmitAssets(p, kinds)[j].id)
  {
    if kinds != [] {
      RankOrderedTail(kinds);
      EmitAssetsOrdered(p, kinds[1..]);
      EmitAssetsKinds(p, kinds[1..]);
      var rest := EmitAssets(p, kinds[1..]);
      match MapAsset(p, kinds[0])
      case None =>
      case Some(a) =>
        KindOfInvertsAssetId(kinds[0], a.id);
        assert RankOfId(a.id) == Rank(kinds[0]);
        var r := [a] + rest;
        forall i, j | 0 <= i < j < |r|
          ensures RankOfId(r[i].id) < RankOfId(r[j].id)
        {
          assert r[j] == rest[j - 1];
          if i > 0 {
            assert r[i] == rest[i - 1];
          } else {
            var k := KindOf(rest[j - 1].id).value;
            assert k in kinds[1..];
            assert RankOfId(rest[j - 1].id) == Rank(k);
          }
        }
    }
  }

  /** An element has an asset in the full emission iff the parameters request it. */
  lemma EmitAssetsRequested(p: NativeParams)
    requires NativeParamsWellFormed(p)
    ensures forall k :: Requested(p, k) <==>
      exists i :: 0 <= i < |EmitAssets(p, EmissionOrder)| && EmitAssets(p, EmissionOrder)[i].id == AssetId(k)
  {
    var assets := EmitAssets(p, EmissionOrder);
    EmitAssetsSound(p, EmissionOrder);
    forall k | Requested(p, k)
      ensures exists i :: 0 <= i < |assets| && assets[i].id == AssetId(k)
    {
      RankIsEmissionPosition(k);
      EmitAssetsComplete(p, EmissionOrder, k);
    }
    forall k, i | 0 <= i < |assets| && assets[i].id == AssetId(k)
      ensures Requested(p, k)
    {
      KindOfInvertsAssetId(k, assets[i].id);
    }
  }

  /** The full emission has at most one asset per element, and every `required` is 0 or 1. */
  lemma EmissionShape(p: NativeParams)
    requires NativeParamsWellFormed(p)
    ensures |EmitAssets(p, EmissionOrder)| <= 7
    ensures forall i, j :: 0 <= i < j < |EmitAssets(p, EmissionOrder)| ==>
      EmitAssets(p, EmissionOrder)[i].id != EmitAssets(p, EmissionOrder)[j].id
    ensures forall i :: 0 <= i < |EmitAssets(p, EmissionOrder)| ==>
      EmitAssets(p, EmissionOrder)[i].required == 0 || EmitAssets(p, EmissionOrder)[i].required == 1
  {
    var assets := EmitAssets(p, EmissionOrder);
    RankIsEmissionPosition(Title);
    EmitAssetsSound(p, EmissionOrder);
    EmitAssetsOrdered(p, EmissionOrder);
    forall i, j | 0 <= i < j < |assets|
      ensures assets[i].id != assets[j].id
    {
      assert RankOfId(assets[i].id) < RankOfId(assets[j].id);
    }
    forall i | 0 <= i < |assets|
      ensures assets[i].required == 0 || assets[i].required == 1
    {
      assert MapAsset(p, KindOf(assets[i].id).value) == Some(assets[i]);
    }
  }

  /**
   * The native asset list: one request per element the parameters name, in
   * the order title, image, icon, sponsored, body, click URL, CTA.
   */
  function MapNativeAssets(p: NativeParams): (assets: seq<AssetRequest>)
    requires NativeParamsWellFormed(p)
    ensures |assets| <= 7
    ensures forall k :: Requested(p, k) <==> exists i :: 0 <= i < |assets| && assets[i].id == AssetId(k)
    ensures forall i :: 0 <= i < |assets| ==>
      KindOf(assets[i].id).Some? && MapAsset(p, KindOf(assets[i].id).value) == Some(assets[i])
    ensures forall i, j :: 0 <= i < j < |assets| ==> RankOfId(assets[i].id) < RankOfId(assets[j].id)
    ensures forall i, j :: 0 <= i < j < |assets| ==> assets[i].id != assets[j].id
    ensures forall i :: 0 <= i < |assets| ==> assets[i].required == 0 || assets[i].required == 1
  {
    var assets := EmitAssets(p, EmissionOrder);
    RankIsEmissionPosition(Title);
    EmitAssetsSound(p, EmissionOrder);
    EmitAssetsOrdered(p, EmissionOrder);
    EmitAssetsRequested(p);
    EmissionShape(p);
    assets
  }

  /**
   * The body asset's `required` follows the `request` property: a body marked
   * `required` but not `request` is sent as optional.
   */
  lemma BodyRequiredFlagIgnoresRequired(p: NativeParams)
    requires NativeParamsWellFormed(p)
    requires p.body.Some? && p.body.value.required && !p.body.value.request
    ensures exists i ::
      0 <= i < |MapNativeAssets(p)| && MapNativeAssets(p)[i].id == AssetId(Body) && MapNativeAssets(p)[i].required == 0
  {
    var assets := MapNativeAssets(p);
    assert Requested(p, Body);
    var i :| 0 <= i < |assets| && assets[i].id == AssetId(Body);
    KindOfInvertsAssetId(Body, assets[i].id);
    assert assets[i].required == 0;
  }

  /** The Imp's native object: present iff the slot asks for a native ad. */
  function MapNative(slot: Slot): (native: Option<Native>)
    requires NativeWellFormed(slot)
    ensures native.Some? <==>
      slot.mediaType == Some("native") || (slot.mediaTypes.Some? && slot.mediaTypes.value.native.Some?)
    ensures native.Some? ==>
      && native.value.ver == "1.1"
      && native.value.assets == MapNativeAssets(NativeParamsOf(slot).value)
  {
    if WantsNative(slot) then Some(Native(MapNativeAssets(NativeParamsOf(slot).value), "1.1")) else None
  }

  /** The Imp of one slot. */
  function MapImpression(slot: Slot): (imp: Imp)
    requires SlotWellFormed(slot)
    ensures imp.id == slot.bidId && imp.tagid == slot.adUnitCode
    ensures imp.banner == MapBanner(slot) && (imp.banner.Some? <==> WantsBanner(slot))
    ensures imp.native == MapNative(slot) && (imp.native.Some? <==> WantsNative(slot))
  {
    Imp(slot.bidId, MapBanner(slot), MapNative(slot), slot.adUnitCode)
  }

  /** One Imp per slot, in slot order. */
  function MapImpressions(slots: seq<Slot>): (imps: seq<Imp>)
    requires forall i :: 0 <= i < |slots| ==> SlotWellFormed(slots[i])
    ensures |imps| == |slots|
    ensures forall i :: 0 <= i < |slots| ==> imps[i] == MapImpression(slots[i])
  {
    if slots == [] then [] else [MapImpression(slots[0])] + MapImpressions(slots[1..])
  }

  /** The Site object: the first slot's publisher (or "unknown" for no slots) and the injected page context. */
  function MapSite(slots: seq<Slot>, page: string, origin: string): (site: Site)
    requires |slots| > 0 ==> slots[0].params.publisherId.Some?
    ensures |slots| > 0 ==> site.publisherId == slots[0].params.publisherId.value
    ensures |slots| == 0 ==> site.publisherId == "unknown"
    ensures site.page == page && site.name == origin
  {
    var pubId := if |slots| > 0 then slots[0].params.publisherId.value else "unknown";
    Site(pubId, page, origin)
  }

  /** The auction-wide context says GDPR applies. */
  predicate GdprApplies(bidderRequest: Option<BidderRequest>) {
    bidderRequest.Some? && bidderRequest.value.gdprConsent.Some? && bidderRequest.value.gdprConsent.value.gdprApplies
  }

  /** The region text substituted into the URL; an absent region prints as "undefined". */
  function RegionText(region: Option<string>): string {
    region.GetOr("undefined")
  }

  /**
   * A slot that passes validation has a publisher ID for the Site object, and
   * its request goes to the endpoint of its own region, never to `undefined`.
   */
  lemma ValidSlotEndpoint(params: Params)
    requires Validator.IsBidRequestValid(params)
    ensures params.publisherId.Some?
    ensures RegionText(params.region) in Validator.Regions
    ensures Validator.RegionOfUrl(Validator.BuildEndpointUrl(RegionText(params.region))) == params.region
  {
    Validator.RegionOfEndpointUrl(params.region.value);
  }

  /**
   * The request for a batch of slots. `page` and `origin` are the top window
   * URL and the page origin, read from the browser by the caller.
   */
  function BuildRequests(slots: seq<Slot>, bidderRequest: Option<BidderRequest>, page: string, origin: string)
    : (req: ServerRequest)
    requires |slots| > 0
    requires forall i :: 0 <= i < |slots| ==> SlotWellFormed(slots[i])
    requires slots[0].params.publisherId.Some?
    ensures req.httpMethod == "POST"
    ensures req.url == Validator.BuildEndpointUrl(RegionText(slots[0].params.region))
    ensures req.data.id == slots[0].auctionId
    ensures |req.data.imp| == |slots|
    ensures forall i :: 0 <= i < |slots| ==>
      && req.data.imp[i] == MapImpression(slots[i])
      && req.data.imp[i].id == slots[i].bidId
      && req.data.imp[i].tagid == slots[i].adUnitCode
    ensures req.data.site == MapSite(slots, page, origin)
    ensures req.data.cur == ["USD"]
    ensures TruthyInt(slots[0].params.test) ==> req.data.test == slots[0].params.test.value
    ensures !TruthyInt(slots[0].params.test) ==> req.data.test == 0
    ensures req.data.regs.Some? <==> GdprApplies(bidderRequest)
    ensures req.data.user.Some? <==> GdprApplies(bidderRequest)
    ensures req.data.regs.Some? ==> req.data.regs.value.gdpr == 1
    ensures req.data.user.Some? ==>
      req.data.user.value.consent ==
        Consent.NormalizeConsent(bidderRequest.value.gdprConsent.value.consentString.GetOr(""))
  {
    var base := OrtbRequest(
      slots[0].auctionId,
      MapImpressions(slots),
      MapSite(slots, page, origin),
      ["USD"],
      IntOr(slots[0].params.test, 0),
      None,
      None);
    var data :=
      if GdprApplies(bidderRequest) then
        var gdpr := bidderRequest.value.gdprConsent.value;
        var consent := if TruthyString(gdpr.consentString) then Consent.NormalizeConsent(gdpr.consentString.value) else "";
        base.(regs := Some(Regs(if gdpr.gdprApplies then 1 else 0)), user := Some(User(consent)))
      else
        base;
    ServerRequest("POST", Validator.BuildEndpointUrl(RegionText(slots[0].params.region)), data)
  }
}

=== FILE: responseinterpreter.dfy ===
/**
 * Interpretation of the endpoint's response: zero-price bids are dropped,
 * the rest become framework bid results, banner or native by the markup's prefix.
 */
module ResponseInterpreter {
  import opened Wrappers
  import opened NativeDecoder

  /** One OpenRTB bid of the response. */
  datatype ServerBid = ServerBid(price: real, impid: string, adid: string, adm: string, w: int, h: int)

  /** The parsed response body: an array of bids, or anything else. */
  datatype ResponseBody = BidArray(bids: seq<ServerBid>) | NotAnArray

  datatype MediaType = BannerType | NativeType

  /** The framework's bid result. `ad` is set for banners, `native` for native bids. */
  datatype BidResult = BidResult(
    requestId: string,
    mediaType: MediaType,
    cpm: real,
    creativeId: string,
    width: int,
    height: int,
    ttl: int,
    netRevenue: bool,
    currency: string,
    ad: Option<string>,
    native: Option<NativeAd>)

  const Ttl: int := 55
  const Currency: string := "USD"

  /** The literal prefix that marks native markup. */
  const NativePrefix: string := "{\"native"

  predicate IsNativeMarkup(adm: string) {
    |adm| >= |NativePrefix| && adm[..|NativePrefix|] == NativePrefix
  }

  /** The fields every bid result takes from its server bid, and the fixed terms. */
  predicate CarriesBid(r: BidResult, b: ServerBid) {
    && r.requestId == b.impid
    && r.cpm == b.price
    && r.creativeId == b.adid
    && r.ttl == Ttl
    && r.netRevenue
    && r.currency == Currency
  }

  /** A banner bid: the markup and dimensions as sent. */
  function InterpretBannerBid(b: ServerBid): (r: BidResult)
    ensures CarriesBid(r, b)
    ensures r.mediaType == BannerType && r.ad == Some(b.adm) && r.native.None?
    ensures r.width == b.w && r.height == b.h
  {
    BidResult(b.impid, BannerType, b.price, b.adid, b.w, b.h, Ttl, true, Currency, Some(b.adm), None)
  }

  /** A native bid: the decoded markup, with placeholder 1x1 dimensions. */
  function InterpretNativeBid(b: ServerBid, parse: string -> Option<NativeMarkup>, encode: string -> string)
    : (r: Result<BidResult, DecodeError>)
    ensures r.Success? <==> InterpretNativeAd(b.adm, parse, encode).Success?
    ensures r.Success? ==> CarriesBid(r.value, b)
    ensures r.Success? ==>
      && r.value.mediaType == NativeType
      && r.value.width == 1 && r.value.height == 1
      && r.value.ad.None?
      && r.value.native == Some(InterpretNativeAd(b.adm, parse, encode).value)
  {
    match InterpretNativeAd(b.adm, parse, encode)
    case Failure(e) => Failure(e)
    case Success(native) => Success(BidResult(b.impid, NativeType, b.price, b.adid, 1, 1, Ttl, true, Currency, None, Some(native)))
  }

  /**
   * One non-zero bid, classified by its markup: native when it starts with the
   * native prefix, a banner otherwise. Only native markup can fail.
   */
  function InterpretBid(b: ServerBid, parse: string -> Option<NativeMarkup>, encode: string -> string)
    : (r: Result<BidResult, DecodeError>)
    ensures r.Failure? <==> IsNativeMarkup(b.adm) && InterpretNativeAd(b.adm, parse, encode).Failure?
    ensures r.Success? ==> CarriesBid(r.value, b)
    ensures r.Success? ==> (r.value.mediaType == NativeType <==> IsNativeMarkup(b.adm))
    ensures r.Success? && r.value.mediaType == BannerType ==>
      r.value.ad == Some(b.adm) && r.value.native.None? && r.value.width == b.w && r.value.height == b.h
    ensures r.Success? && r.value.mediaType == NativeType ==>
      r.value.ad.None? && r.value.native == Some(InterpretNativeAd(b.adm, parse, encode).value)
      && r.value.width == 1 && r.value.height == 1
  {
    if IsNativeMarkup(b.adm) then InterpretNativeBid(b, parse, encode) else Success(InterpretBannerBid(b))
  }

  /** The bids that are not no-bid sentinels, in response order. */
  function KeptBids(bids: seq<ServerBid>): (kept: seq<ServerBid>)
    ensures |kept| <= |bids|
    ensures forall b :: b in kept <==> b in bids && b.price != 0.0
  {
    if bids == [] then []
    else if bids[0].price == 0.0 then KeptBids(bids[1..])
    else [bids[0]] + KeptBids(bids[1..])
  }

  /** Filtering distributes over concatenation, so the kept bids keep their relative order. */
  lemma {:induction false} KeptBidsAppend(a: seq<ServerBid>, b: seq<ServerBid>)
    ensures KeptBids(a + b) == KeptBids(a) + KeptBids(b)
  {
    if a == [] {
      assert a + b == b;
    } else {
      assert (a + b)[0] == a[0];
      assert (a + b)[1..] == a[1..] + b;
      KeptBidsAppend(a[1..], b);
    }
  }

  /** A bid whose interpretation throws. */
  predicate Undecodable(b: ServerBid, parse: string -> Option<NativeMarkup>, encode: string -> string) {
    IsNativeMarkup(b.adm) && InterpretNativeAd(b.adm, parse, encode).Failure?
  }

  /** Only native markup can fail to be interpreted, and it fails exactly when decoding it fails. */
  lemma UndecodableIsNativeFailure(b: ServerBid, parse: string -> Option<NativeMarkup>, encode: string -> string)
    ensures Undecodable(b, parse, encode) <==> InterpretBid(b, parse, encode).Failure?
  {
  }

  /**
   * Interprets each bid in turn, pushing one result per bid; the first failure
   * is thrown out of the whole loop.
   */
  function InterpretAll(kept: seq<ServerBid>, parse: string -> Option<NativeMarkup>, encode: string -> string)
    : (r: Result<seq<BidResult>, DecodeError>)
    ensures r.Success? ==> |r.value| == |kept|
  {
    if kept == [] then Success([])
    else
      match InterpretBid(kept[0], parse, encode)
      case Failure(e) => Failure(e)
      case Success(head) =>
        match InterpretAll(kept[1..], parse, encode)
        case Failure(e) => Failure(e)
        case Success(rest) => Success([head] + rest)
  }

  /** The `forEach` over the response bids: zero-price bids are skipped, the rest interpreted. */
  function InterpretBids(bids: seq<ServerBid>, parse: string -> Option<NativeMarkup>, encode: string -> string)
    : (r: Result<seq<BidResult>, DecodeError>)
    ensures r.Success? ==> |r.value| == |KeptBids(bids)| <= |bids|
  {
    InterpretAll(KeptBids(bids), parse, encode)
  }

  /** The loop fails iff one of the bids it visits cannot be interpreted. */
  lemma {:induction false} InterpretAllFailure(kept: seq<ServerBid>, parse: string -> Option<NativeMarkup>, encode: string -> string)
    ensures InterpretAll(kept, parse, encode).Failure? <==>
      exists i :: 0 <= i < |kept| && Undecodable(kept[i], parse, encode)
  {
    if kept != [] {
      InterpretAllFailure(kept[1..], parse, encode);
      if exists i :: 0 <= i < |kept| && Undecodable(kept[i], parse, encode) {
        var i :| 0 <= i < |kept| && Undecodable(kept[i], parse, encode);
        if i > 0 {
          assert kept[1..][i - 1] == kept[i];
        }
      }
      if InterpretAll(kept[1..], parse, encode).Failure? {
        var i :| 0 <= i < |kept[1..]| && Undecodable(kept[1..][i], parse, encode);
        assert kept[i + 1] == kept[1..][i];
      }
    }
  }

  /** On success there is one result per visited bid, in order, each the interpretation of its bid. */
  lemma {:induction false} InterpretAllPointwise(kept: seq<ServerBid>, parse: string -> Option<NativeMarkup>, encode: string -> string)
    requires InterpretAll(kept, parse, encode).Success?
    ensures |InterpretAll(kept, parse, encode).value| == |kept|
    ensures forall i :: 0 <= i < |kept| ==>
      InterpretBid(kept[i], parse, encode) == Success(InterpretAll(kept, parse, encode).value[i])
  {
    if kept != [] {
      InterpretAllPointwise(kept[1..], parse, encode);
      var out := InterpretAll(kept, parse, encode).value;
      var rest := InterpretAll(kept[1..], parse, encode).value;
      assert |out| == |rest| + 1 && Success(out[0]) == InterpretBid(kept[0], parse, encode);
      forall i | 1 <= i < |kept|
        ensures InterpretBid(kept[i], parse, encode) == Success(out[i])
      {
        assert kept[i] == kept[1..][i - 1];
        assert out[i] == rest[i - 1];
      }
    }
  }

  /**
   * The bid results of a response: none for a body that is not an array;
   * otherwise one per non-zero bid, in order, each carrying its bid's
   * identifiers and price and classified by the markup prefix.
   */
  function InterpretResponse(body: ResponseBody, parse: string -> Option<NativeMarkup>, encode: string -> string)
    : (r: Result<seq<BidResult>, DecodeError>)
    ensures body.NotAnArray? ==> r == Success([])
    ensures body.BidArray? ==>
      (r.Failure? ==> exists i :: 0 <= i < |KeptBids(body.bids)| && Undecodable(KeptBids(body.bids)[i], parse, encode))
    ensures body.BidArray? ==>
      ((exists i :: 0 <= i < |KeptBids(body.bids)| && Undecodable(KeptBids(body.bids)[i], parse, encode)) ==> r.Failure?)
    ensures body.BidArray? && r.Success? ==>
      var kept := KeptBids(body.bids);
      && |r.value| == |kept| <= |body.bids|
      && forall i :: 0 <= i < |r.value| ==>
        && InterpretBid(kept[i], parse, encode) == Success(r.value[i])
        && CarriesBid(r.value[i], kept[i])
        && r.value[i].cpm != 0.0
        && (r.value[i].mediaType == NativeType <==> IsNativeMarkup(kept[i].adm))
        && (r.value[i].mediaType == BannerType ==> r.value[i].ad == Some(kept[i].adm))
        && (r.value[i].mediaType == NativeType ==> r.value[i].width == 1 && r.value[i].height == 1)
  {
    match body
    case NotAnArray => Success([])
    case BidArray(bids) =>
      InterpretAllFailure(KeptBids(bids), parse, encode);
      if InterpretBids(bids, parse, encode).Success? then
        InterpretAllPointwise(KeptBids(bids), parse, encode);
        InterpretBids(bids, parse, encode)
      else
        InterpretBids(bids, parse, encode)
  }
}

=== FILE: validator.dfy ===
/** Eligibility of a slot for this endpoint, and the endpoint URL of a region. */
module Validator {
  import opened Wrappers
  import opened BidRequest

  /** The regions the endpoint is served from. */
  const Regions: seq<string> := ["prebid-eu", "prebid-us", "prebid-asia"]

  /** Host and path shared by every region. */
  const EndpointHost: string := "creativecdn.com/bidder/prebid/bids"

  const Scheme: string := "https://"

  /** A slot is eligible iff its region is a supported one and its publisher ID is truthy. */
  function IsBidRequestValid(params: Params): (valid: bool)
    ensures valid <==>
      && (|| params.region == Some("prebid-eu")
          || params.region == Some("prebid-us")
          || params.region == Some("prebid-asia"))
      && params.publisherId.Some? && |params.publisherId.value| > 0
  {
    params.region.Some? && params.region.value in Regions && TruthyString(params.publisherId)
  }

  /** The endpoint URL of a region: scheme, region, a dot, then the fixed host and path. */
  function BuildEndpointUrl(region: string): (url: string)
    ensures |url| == |Scheme| + |region| + 1 + |EndpointHost|
    ensures url[..|Scheme|] == Scheme
    ensures url[|Scheme|..|Scheme| + |region|] == region
    ensures url[|Scheme| + |region|..] == "." + EndpointHost
  {
    Scheme + region + "." + EndpointHost
  }

  /** Recovers the region from an endpoint URL; `None` for any other string. */
  function RegionOfUrl(url: string): (region: Option<string>)
    ensures region.Some? ==> BuildEndpointUrl(region.value) == url
  {
    var tail := "." + EndpointHost;
    if |url| >= |Scheme| + |tail| && url[..|Scheme|] == Scheme && url[|url| - |tail|..] == tail then
      var r := url[|Scheme|..|url| - |tail|];
      assert url == Scheme + r + tail by {
        assert url == url[..|Scheme|] + url[|Scheme|..|url| - |tail|] + url[|url| - |tail|..];
      }
      Some(r)
    else
      None
  }

  /** Every endpoint URL gives back its region; hence distinct regions give distinct URLs. */
  lemma RegionOfEndpointUrl(region: string)
    ensures RegionOfUrl(BuildEndpointUrl(region)) == Some(region)
  {
    var url := BuildEndpointUrl(region);
    var tail := "." + EndpointHost;
    assert url[|url| - |tail|..] == tail;
  }

  lemma EndpointUrlInjective(r1: string, r2: string)
    ensures BuildEndpointUrl(r1) == BuildEndpointUrl(r2) ==> r1 == r2
  {
    RegionOfEndpointUrl(r1);
    RegionOfEndpointUrl(r2);
  }
}

=== FILE: wrappers.dfy ===
/** Optional values and results shared by the whole model. */
module Wrappers {

  /** An optional value: `None` stands for a JavaScript property that is absent (undefined). */
  datatype Option<+T> = None | Some(value: T) {

    /** The wrapped value, or `default` when absent. */
    function GetOr(default: T): T {
      match this
      case Some(v) => v
      case None => default
    }
  }

  /** The outcome of a computation that can throw. */
  datatype Result<+R, +E> = Success(value: R) | Failure(error: E)

  /** JavaScript truthiness of an optional string: present and non-empty. */
  predicate TruthyString(s: Option<string>) {
    s.Some? && s.value != ""
  }

  /** JavaScript truthiness of an optional number: present and non-zero. */
  predicate TruthyInt(n: Option<int>) {
    n.Some? && n.value != 0
  }

  /** `x || d` on an optional number: the number when truthy, the default otherwise. */
  function IntOr(n: Option<int>, d: int): int {
    if TruthyInt(n) then n.value else d
  }
}
